=== FILE: README.md ===
# Keystore2 interceptor: transaction routing

This project models the routing logic that TrickyStoreOSS runs inside the
`keystore2` process around the main `IKeystoreService` binder. The model is a
pure decision procedure and is proved in Dafny.

- The **pre hook** (`onPreTransact`) runs before the real service. It handles
  only `getKeyEntry` while a keybox is loaded. It decodes the request's key
  descriptor and asks the package policy about the caller. Then it does one of
  three things:
  - replays a response cached for the caller's (uid, alias);
  - declines;
  - lets the call through (`Continue`) so that the leaf certificate can be
    hacked afterwards.
- The **post hook** (`onPostTransact`) runs after the real service. It ignores
  other targets, missing replies and exception replies. A `deleteKey` with
  result code 0 whose request decodes to a non-null descriptor with a
  non-zero domain drops the caller's (uid, alias) entry from the response
  table. A null descriptor or domain 0 leaves the table as it is; domain 0 is
  the domain an application uses for its own keys. For a
  `getKeyEntry` reply, it replaces the certificate chain in the reply through
  the chain-substitution collaborators. Any failure in that path lets the
  genuine reply through.

Modules:

- `HookFlow` (`hook_flow.dfy`): the hook outcome `Skip | Continue | Replace(response)`.
  It also holds `Flow`, which names the three ways a Kotlin `runCatching`/`try`
  block ends (a non-local `return`, leaving the block, or a caught exception),
  and `Guard`, the trailing `return Skip`.
- `KeystoreTypes` (`keystore_types.dfy`): the interface token, key descriptors,
  request and reply parcels as decode results, and the response table
  `map<(uid, alias), Response>` with its lookup and removal.
- `Keystore2Interceptor` (`keystore2_interceptor.dfy`): `PreTransact` and
  `PostTransact`.
- `InterceptorProperties` (`interceptor_properties.dfy`): one lemma per routing
  rule, and lemmas that relate a delete to later lookups.
- `KeyTableTrace` (`key_table_trace.dfy`): the table across a sequence of
  post-hook calls. An entry survives exactly when no call deleted it, so a
  lookup replays the same response until the key is deleted.
- `Scenarios` (`scenarios.dfy`): end-to-end walks for uid 10205.

The following are parameters of the model:

- The external collaborators, as the `Policy` and `ChainBoundary` records:
  - `KeyBoxUtils.hasKeyboxes`;
  - `PkgConfig.needGenerate/needHack`;
  - `SecurityLevelInterceptor.shouldSkipLeafHack`;
  - certificate-chain reading, `CertificateHack.hackCertificateChain`, and
    `putCertificateChain`.
- The transaction codes and the keystore binder, as the `Keystore2` record.

Two behaviours of the code are worth stating plainly:

- The pre hook returns `Skip`, not `Continue`, for other opcodes and for a
  request that does not decode (lines 77-108).
- The delete branch decodes outside any `try` (lines 126-129), so a malformed
  request throws out of `onPostTransact`. The model gives this outcome as
  `PostResult.Raised`.

## Model

| member | source | states |
|---|---|---|
| KeystoreTypes.Lookup | app/src/main/java/io/github/beakthoven/TrickyStoreOSS/interceptors/Keystore2Interceptor.kt:84-85 | the cached-response lookup answers from the table: a response exactly when (uid, alias) has an entry, and then that entry |
| KeystoreTypes.Forget | app/src/main/java/io/github/beakthoven/TrickyStoreOSS/interceptors/Keystore2Interceptor.kt:132 | removing (uid, alias) drops exactly that key; every other entry keeps its response |
| Keystore2Interceptor.PreTransact | app/src/main/java/io/github/beakthoven/TrickyStoreOSS/interceptors/Keystore2Interceptor.kt:69-109 | Skip for every opcode other than getKeyEntry, when no keybox is loaded, and when the request does not decode; a Replace always carries the cached entry of the caller's own (uid, alias); Continue only for a caller that needs the hack, does not need generation, and has no skip flag on the key |
| Keystore2Interceptor.PostTransact | app/src/main/java/io/github/beakthoven/TrickyStoreOSS/interceptors/Keystore2Interceptor.kt:111-158 | never Continue; the table only loses entries, and only the caller's own, and only through deleteKey with result 0; an exception escapes only from that delete branch on a request that does not decode; another target or a null reply gives Skip with the table unchanged |
| InterceptorProperties.GenerateReplaysCache | app/src/main/java/io/github/beakthoven/TrickyStoreOSS/interceptors/Keystore2Interceptor.kt:83-87 | with generation required, the outcome is Replace(cached) when (uid, alias) is cached and Skip otherwise |
| InterceptorProperties.GenerateIgnoresHackPolicy | app/src/main/java/io/github/beakthoven/TrickyStoreOSS/interceptors/Keystore2Interceptor.kt:83-88 | generation takes precedence: needHack and shouldSkipLeafHack are not consulted when needGenerate holds |
| InterceptorProperties.ContinueExactly | app/src/main/java/io/github/beakthoven/TrickyStoreOSS/interceptors/Keystore2Interceptor.kt:88-102 | Continue if and only if the hook is armed, the request decodes, needHack holds, needGenerate does not, and the key has no skip flag |
| InterceptorProperties.SkipLeafHackReplaysCache | app/src/main/java/io/github/beakthoven/TrickyStoreOSS/interceptors/Keystore2Interceptor.kt:89-98 | with the skip flag set, the outcome is Replace(cached) or Skip when nothing is cached, never Continue |
| InterceptorProperties.NoPolicySkips | app/src/main/java/io/github/beakthoven/TrickyStoreOSS/interceptors/Keystore2Interceptor.kt:103-104 | a caller with neither generation nor hack policy gets Skip |
| InterceptorProperties.ReplaceExactly | app/src/main/java/io/github/beakthoven/TrickyStoreOSS/interceptors/Keystore2Interceptor.kt:83-98 | the pre hook replaces if and only if it is armed, the request decodes, the key is cached, and the caller needs generation or skips the leaf hack; the replacement is the cached response |
| InterceptorProperties.PreReadsOnlyOwnEntry | app/src/main/java/io/github/beakthoven/TrickyStoreOSS/interceptors/Keystore2Interceptor.kt:84-91 | the pre hook's outcome depends on the table only through the caller's own (uid, alias) entry |
| InterceptorProperties.ExceptionReplyPassesThrough | app/src/main/java/io/github/beakthoven/TrickyStoreOSS/interceptors/Keystore2Interceptor.kt:122 | a reply carrying an exception marker gives Skip with the table unchanged |
| InterceptorProperties.OtherOpcodesPassThrough | app/src/main/java/io/github/beakthoven/TrickyStoreOSS/interceptors/Keystore2Interceptor.kt:126-157 | opcodes other than getKeyEntry and deleteKey give Skip with the table unchanged |
| InterceptorProperties.DeleteRemovesExactlyOwnKey | app/src/main/java/io/github/beakthoven/TrickyStoreOSS/interceptors/Keystore2Interceptor.kt:126-134 | a successful delete of a decoded descriptor with non-zero domain removes (uid, alias), keeps every other entry, and returns Skip |
| InterceptorProperties.TableUnchangedUnlessDelete | app/src/main/java/io/github/beakthoven/TrickyStoreOSS/interceptors/Keystore2Interceptor.kt:121-157 | every post-hook call that is not such a delete leaves the table exactly as it was, including a non-zero result code |
| InterceptorProperties.DeleteOfNullOrIgnoredDomainSkips | app/src/main/java/io/github/beakthoven/TrickyStoreOSS/interceptors/Keystore2Interceptor.kt:129-130 | a delete whose descriptor is null or has domain 0 gives Skip with the table unchanged |
| InterceptorProperties.DeleteOfMalformedRequestRaises | app/src/main/java/io/github/beakthoven/TrickyStoreOSS/interceptors/Keystore2Interceptor.kt:126-129 | the unguarded decode on the delete path throws out of the hook on a token mismatch or a failed read, with the table intact |
| InterceptorProperties.HackReplacesExactly | app/src/main/java/io/github/beakthoven/TrickyStoreOSS/interceptors/Keystore2Interceptor.kt:135-157 | a getKeyEntry reply is replaced if and only if the token matches, the reply decodes, the chain is present, and substitution and write-back both succeed; the replacement is the written-back response; any other failure gives Skip |
| InterceptorProperties.DeletedKeyIsNotReplayed | app/src/main/java/io/github/beakthoven/TrickyStoreOSS/interceptors/Keystore2Interceptor.kt:132 | after a successful delete, a later lookup of the same (uid, alias) is never answered from the table |
| InterceptorProperties.DeleteIsolatesOtherKeys | app/src/main/java/io/github/beakthoven/TrickyStoreOSS/interceptors/Keystore2Interceptor.kt:132 | any post-hook call leaves the pre-hook outcome of every key it does not delete unchanged |
| KeyTableTrace.RunPostTrace | app/src/main/java/io/github/beakthoven/TrickyStoreOSS/interceptors/Keystore2Interceptor.kt:121-157 | after any sequence of post-hook calls, the table is a sub-table of the starting one with the same responses |
| KeyTableTrace.StepRemovesExactlyDeleted | app/src/main/java/io/github/beakthoven/TrickyStoreOSS/interceptors/Keystore2Interceptor.kt:126-134 | one post-hook call keeps a key if and only if the call is not a successful delete of that key |
| KeyTableTrace.TraceKeepsExactlyUndeleted | app/src/main/java/io/github/beakthoven/TrickyStoreOSS/interceptors/Keystore2Interceptor.kt:126-134 | after a sequence of calls, a key is present if and only if it was present before and no call in the sequence deleted it |
| KeyTableTrace.ReplayStableAcrossTrace | app/src/main/java/io/github/beakthoven/TrickyStoreOSS/interceptors/Keystore2Interceptor.kt:84-94 | idempotent replay: if no call deleted the caller's key, a lookup after the sequence gives the same outcome as before it |
| KeyTableTrace.DeletedInTraceIsNotReplayed | app/src/main/java/io/github/beakthoven/TrickyStoreOSS/interceptors/Keystore2Interceptor.kt:132 | once some call in a sequence deleted the caller's key, a later lookup is never a Replace |
| Scenarios.GenerateWithoutCacheDeclines | app/src/main/java/io/github/beakthoven/TrickyStoreOSS/interceptors/Keystore2Interceptor.kt:83-85 | uid 10205 needing generation, with nothing cached for "app-key", gets Skip |
| Scenarios.GenerateWithCacheReplays | app/src/main/java/io/github/beakthoven/TrickyStoreOSS/interceptors/Keystore2Interceptor.kt:83-87 | with R cached for (10205, "app-key"), the lookup gets Replace(R) |
| Scenarios.LeafHackRewritesReply | app/src/main/java/io/github/beakthoven/TrickyStoreOSS/interceptors/Keystore2Interceptor.kt:135-145 | a hacked caller without the skip flag gets Continue, and the post hook returns the response the chain boundary wrote back, with the table unchanged |
| Scenarios.AppDomainDeleteKeepsGeneratedKey | app/src/main/java/io/github/beakthoven/TrickyStoreOSS/interceptors/Keystore2Interceptor.kt:126-130 | deleting (10205, "app-key") with domain 0 keeps its entry, and generation still replays the cached response |
| Scenarios.DeleteClearsGeneratedKey | app/src/main/java/io/github/beakthoven/TrickyStoreOSS/interceptors/Keystore2Interceptor.kt:126-134 | deleting (10205, "app-key") with a non-zero domain empties the table, and generation then declines |

## Left out

- Security-level discovery and interceptor registration (lines 34-67): this is binder IPC and native injection.
- The Parcel wire format:
  - `enforceInterface` and `readTypedObject` are abstracted as a token string and a `Call` result (an object, null, or thrown).
  - `createTypedObjectReply` is taken to always succeed, and its output is shown as `Replace(response)`.
  - The scratch parcel obtained at line 123 and its `recycle` calls have no effect on routing.
- The `target`, `flags` and `callingPid` arguments of the pre hook, and `flags` and `callingPid` in the post hook: they are only logged.
- Logging: it has no effect on control flow.
- `KeyBoxUtils.hasKeyboxes()` (line 78) and `reply.hasException()` (line 122): they are assumed not to throw. Both are called outside any `runCatching`/`try`, so an exception from either would escape the hook, like the delete-path decode. The model has them as plain booleans (`Policy.hasKeyboxes`, `ReplyParcel.hasException`).
- Whether the post hook runs after a pre-hook `Skip`: the binder interceptor that decides this is not part of this model. The model takes the post hook to run for every call that reaches the real service, whatever the pre hook returned. The pre hook returns `Skip` for `deleteKey` (line 108). So the delete branch (lines 126-134), and every lemma about deletion clearing the table, depend on this assumption.
- The policy queries and `shouldSkipLeafHack`: they are total boolean functions. An exception from them inside the guarded block would also end in `Skip`; this is not modelled.
- `shouldSkipLeafHack` (line 89): its definition is not part of this model. It sits in the same object as the `keys` table, but the model takes it to be a fixed function of (uid, alias) that does not depend on that table. A delete is therefore taken never to change any key's skip flag. `InterceptorProperties.DeleteIsolatesOtherKeys` and `KeyTableTrace.ReplayStableAcrossTrace` rely on this, because they use one `Policy` before and after the post-hook calls.
- The key alias: it is a string. Kotlin's nullable `alias` is not distinguished from a present one.
- The numeric transaction codes: they come from reflection (lines 27-30) and are parameters.
- The contents of `KeyEntryResponse` and the certificate chain: they are opaque, and chain construction is cryptographic.
- `SecurityLevelInterceptor.getKeyResponse` (lines 84, 91): its definition is not part of this model. The model takes it to read the same `keys` map, keyed by (uid, alias), that line 132 removes from, and `PreTransact` reads that table directly. Every lemma about a delete affecting later lookups depends on this assumption:
  - `InterceptorProperties.DeletedKeyIsNotReplayed`
  - `InterceptorProperties.DeleteIsolatesOtherKeys`
  - `KeyTableTrace.ReplayStableAcrossTrace`
  - `KeyTableTrace.DeletedInTraceIsNotReplayed`
  - `Scenarios.DeleteClearsGeneratedKey`
  - `Scenarios.AppDomainDeleteKeepsGeneratedKey`
- The writes that fill the response table: they happen in `SecurityLevelInterceptor`, which is not part of this model.
- Concurrency and thread safety of the shared table: the model is sequential.
- What the binder interceptor does when `onPostTransact` throws: the model stops at `PostResult.Raised`.
- `app/build.gradle.kts`: it is build and packaging tooling.

=== FILE: hook_flow.dfy ===
/** Control-flow vocabulary of a binder interceptor hook.

    A hook returns one of three outcomes to the binder interceptor that
    installed it. Inside a hook, Kotlin's `runCatching { ... }` and
    `try { ... } catch` blocks are followed by a fall-back `return Skip`;
    the `Flow` datatype names the three ways such a block can end so that
    the hooks can be written as pure functions without exceptions.
 */
module HookFlow {

  datatype Option<+T> = None | Some(value: T)

  /** Result of a platform call that returns a nullable object and may throw,
      such as reading a typed object from a parcel. */
  datatype Call<+T> = Value(value: T) | Null | Threw

  /** The value a hook hands back to the binder interceptor.
      - `Skip`: the hook declines; before the call the real service runs
        untouched, after the call its reply is delivered unmodified. The
        model takes the post hook to run after every call that reaches the
        real service, whichever of `Skip` or `Continue` the pre hook gave;
        the binder interceptor that makes this choice is not part of it.
      - `Continue`: the real service must run and the post hook will see it.
      - `Replace(response)`: the reply is the encoded `response`; before the
        call this also suppresses the real service. */
  datatype HookOutcome<+R> = Skip | Continue | Replace(response: R)

  /** How a guarded block (`runCatching` lambda or `try` body) ended:
      - `Return(o)`: a non-local `return o` out of the whole hook;
      - `Leave`: the block finished without returning (`return@runCatching`,
        or the end of the `try` body was reached);
      - `Raise`: an exception was thrown and caught by the guard. */
  datatype Flow<+R> = Return(outcome: HookOutcome<R>) | Leave | Raise

  /** The hook's result once a guarded block has run: a non-local return
      passes through, every other ending reaches the `return Skip` placed
      after the block. */
  function Guard<R>(f: Flow<R>): HookOutcome<R>
  {
    match f
    case Return(o) => o
    case Leave => Skip
    case Raise => Skip
  }
}

=== FILE: interceptor_properties.dfy ===
/** Properties of the keystore2 interceptor hooks, one lemma per routing
    rule, plus the rules that relate the post hook's table update to later
    pre-hook lookups. */
module InterceptorProperties {
  import opened HookFlow
  import opened KeystoreTypes
  import opened Keystore2Interceptor

  /** The pre hook is armed: a `getKeyEntry` call while a keybox is loaded. */
  predicate Armed(k2: Keystore2, policy: Policy, code: int)
  {
    code == k2.getKeyEntryCode && policy.hasKeyboxes
  }

  /** The outcome of replaying the table for (uid, alias), as an independent
      reference for the two replay branches of the pre hook. */
  function Cached(keys: KeyTable, uid: int, alias: string): HookOutcome<Response>
  {
    if (uid, alias) in keys then Replace(keys[(uid, alias)]) else Skip
  }

  // ---------------------------------------------------------------------
  // Pre hook
  // ---------------------------------------------------------------------

  /** With generation required, the pre hook replays the cached response of
      (uid, alias) when there is one and declines otherwise. */
  lemma GenerateReplaysCache(k2: Keystore2, policy: Policy, keys: KeyTable, code: int, uid: int,
                             data: RequestParcel)
    requires Armed(k2, policy, code) && RequestDecodes(data)
    requires policy.needGenerate(uid)
    ensures PreTransact(k2, policy, keys, code, uid, data) == Cached(keys, uid, data.descriptor.value.alias)
  {
  }

  /** Generation takes precedence: when both policies require generation for
      the caller, their hack and skip-leaf-hack answers make no difference. */
  lemma GenerateIgnoresHackPolicy(k2: Keystore2, p1: Policy, p2: Policy, keys: KeyTable, code: int,
                                  uid: int, data: RequestParcel)
    requires p1.hasKeyboxes == p2.hasKeyboxes
    requires p1.needGenerate(uid) && p2.needGenerate(uid)
    ensures PreTransact(k2, p1, keys, code, uid, data) == PreTransact(k2, p2, keys, code, uid, data)
  {
  }

  /** `Continue` is returned exactly for an armed, decodable request of a
      caller that needs the leaf hack, does not need generation, and whose
      key is not marked to skip the hack. */
  lemma ContinueExactly(k2: Keystore2, policy: Policy, keys: KeyTable, code: int, uid: int,
                        data: RequestParcel)
    ensures PreTransact(k2, policy, keys, code, uid, data) == Continue <==>
      Armed(k2, policy, code) && RequestDecodes(data)
      && !policy.needGenerate(uid) && policy.needHack(uid)
      && !policy.shouldSkipLeafHack(uid, data.descriptor.value.alias)
  {
  }

  /** When the leaf hack is to be skipped for the key, the pre hook replays
      the cache like the generation branch does, and never continues. */
  lemma SkipLeafHackReplaysCache(k2: Keystore2, policy: Policy, keys: KeyTable, code: int, uid: int,
                                 data: RequestParcel)
    requires Armed(k2, policy, code) && RequestDecodes(data)
    requires !policy.needGenerate(uid) && policy.needHack(uid)
    requires policy.shouldSkipLeafHack(uid, data.descriptor.value.alias)
    ensures PreTransact(k2, policy, keys, code, uid, data) == Cached(keys, uid, data.descriptor.value.alias)
    ensures PreTransact(k2, policy, keys, code, uid, data) != Continue
  {
  }

  /** A caller with neither generation nor hack policy is declined. */
  lemma NoPolicySkips(k2: Keystore2, policy: Policy, keys: KeyTable, code: int, uid: int,
                      data: RequestParcel)
    requires !policy.needGenerate(uid) && !policy.needHack(uid)
    ensures PreTransact(k2, policy, keys, code, uid, data) == Skip
  {
  }

  /** The pre hook replaces the reply exactly when it is armed, the request
      decodes, the caller's key has a cached response, and the caller is
      either to be generated for or to skip the leaf hack; the replacement is
      that cached response. */
  lemma ReplaceExactly(k2: Keystore2, policy: Policy, keys: KeyTable, code: int, uid: int,
                       data: RequestParcel)
    ensures PreTransact(k2, policy, keys, code, uid, data).Replace? <==>
      Armed(k2, policy, code) && RequestDecodes(data)
      && (uid, data.descriptor.value.alias) in keys
      && (policy.needGenerate(uid)
          || (policy.needHack(uid) && policy.shouldSkipLeafHack(uid, data.descriptor.value.alias)))
    ensures PreTransact(k2, policy, keys, code, uid, data).Replace? ==>
      PreTransact(k2, policy, keys, code, uid, data).response == keys[(uid, data.descriptor.value.alias)]
  {
  }

  /** The pre hook reads the table only at the caller's own key: two tables
      that agree there give the same outcome. */
  lemma PreReadsOnlyOwnEntry(k2: Keystore2, policy: Policy, t1: KeyTable, t2: KeyTable, code: int,
                             uid: int, data: RequestParcel)
    requires RequestDecodes(data)
    requires Lookup(t1, uid, data.descriptor.value.alias) == Lookup(t2, uid, data.descriptor.value.alias)
    ensures PreTransact(k2, policy, t1, code, uid, data) == PreTransact(k2, policy, t2, code, uid, data)
  {
  }

  // ---------------------------------------------------------------------
  // Post hook
  // ---------------------------------------------------------------------

  /** A reply with an exception marker passes through untouched. */
  lemma ExceptionReplyPassesThrough(k2: Keystore2, boundary: ChainBoundary, keys: KeyTable,
                                    target: BinderRef, code: int, uid: int, data: RequestParcel,
                                    reply: ReplyParcel, resultCode: int)
    requires reply.Reply? && reply.hasException
    ensures PostTransact(k2, boundary, keys, target, code, uid, data, reply, resultCode)
      == Returned(Skip, keys)
  {
  }

  /** Opcodes other than `getKeyEntry` and `deleteKey` pass through and leave
      the table alone. */
  lemma OtherOpcodesPassThrough(k2: Keystore2, boundary: ChainBoundary, keys: KeyTable,
                                target: BinderRef, code: int, uid: int, data: RequestParcel,
                                reply: ReplyParcel, resultCode: int)
    requires code != k2.getKeyEntryCode && code != k2.deleteKeyCode
    ensures PostTransact(k2, boundary, keys, target, code, uid, data, reply, resultCode)
      == Returned(Skip, keys)
  {
  }

  /** The conditions under which the post hook removes the caller's
      (uid, alias) key from the table, whether or not the table holds it: a
      successful `deleteKey` on the keystore binder whose request decodes to
      a descriptor with a domain other than 0. */
  predicate DeleteApplies(k2: Keystore2, target: BinderRef, code: int, data: RequestParcel,
                          reply: ReplyParcel, resultCode: int)
  {
    && target == k2.keystore
    && reply.Reply? && !reply.hasException
    && code == k2.deleteKeyCode && resultCode == 0
    && RequestDecodes(data)
    && data.descriptor.value.domain != IgnoredDeleteDomain
  }

  /** A successful delete removes exactly the caller's entry for the deleted
      alias, keeps every other entry, and passes the reply through. */
  lemma DeleteRemovesExactlyOwnKey(k2: Keystore2, boundary: ChainBoundary, keys: KeyTable,
                                   target: BinderRef, code: int, uid: int, data: RequestParcel,
                                   reply: ReplyParcel, resultCode: int)
    requires DeleteApplies(k2, target, code, data, reply, resultCode)
    ensures var s := PostTransact(k2, boundary, keys, target, code, uid, data, reply, resultCode);
      && s.Returned? && s.outcome == Skip
      && (uid, data.descriptor.value.alias) !in s.keys
      && forall k :: k != (uid, data.descriptor.value.alias) && k in keys ==> k in s.keys && s.keys[k] == keys[k]
  {
  }

  /** Every other post-hook call leaves the table exactly as it was. */
  lemma TableUnchangedUnlessDelete(k2: Keystore2, boundary: ChainBoundary, keys: KeyTable,
                                   target: BinderRef, code: int, uid: int, data: RequestParcel,
                                   reply: ReplyParcel, resultCode: int)
    requires !DeleteApplies(k2, target, code, data, reply, resultCode)
    ensures PostTransact(k2, boundary, keys, target, code, uid, data, reply, resultCode).keys == keys
  {
  }

  /** A delete whose descriptor is null or has the ignored domain is passed
      through with the table unchanged. */
  lemma DeleteOfNullOrIgnoredDomainSkips(k2: Keystore2, boundary: ChainBoundary, keys: KeyTable,
                                       target: BinderRef, code: int, uid: int, data: RequestParcel,
                                       reply: ReplyParcel, resultCode: int)
    requires code == k2.deleteKeyCode && resultCode == 0
    requires data.token == KeystoreDescriptor
    requires data.descriptor.Null? || (data.descriptor.Value? && data.descriptor.value.domain == IgnoredDeleteDomain)
    ensures PostTransact(k2, boundary, keys, target, code, uid, data, reply, resultCode)
      == Returned(Skip, keys)
  {
  }

  /** The delete branch decodes outside any guard: a successful delete whose
      request does not decode makes the hook throw, with the table intact. */
  lemma DeleteOfMalformedRequestRaises(k2: Keystore2, boundary: ChainBoundary, keys: KeyTable,
                                       target: BinderRef, code: int, uid: int, data: RequestParcel,
                                       reply: ReplyParcel, resultCode: int)
    requires target == k2.keystore && reply.Reply? && !reply.hasException
    requires code == k2.deleteKeyCode && resultCode == 0
    requires data.token != KeystoreDescriptor || data.descriptor.Threw?
    ensures PostTransact(k2, boundary, keys, target, code, uid, data, reply, resultCode) == Raised(keys)
  {
  }

  /** Every step of the chain substitution succeeded for this reply. */
  predicate ChainSubstituted(boundary: ChainBoundary, data: RequestParcel, response: Call<Response>)
  {
    && data.token == KeystoreDescriptor
    && response.Value?
    && boundary.chainOf(response.value).Value?
    && boundary.substitute(boundary.chainOf(response.value).value).Some?
    && boundary.writeBack(response.value, boundary.substitute(boundary.chainOf(response.value).value).value).Some?
  }

  /** The post hook replaces a reply exactly when it is a `getKeyEntry`
      reply on the keystore binder, not taken by the delete branch, and every
      step of the chain substitution succeeded; the replacement is the
      response with the substituted chain written back. Any other
      `getKeyEntry` reply passes through. */
  lemma HackReplacesExactly(k2: Keystore2, boundary: ChainBoundary, keys: KeyTable,
                            target: BinderRef, code: int, uid: int, data: RequestParcel,
                            reply: ReplyParcel, resultCode: int)
    ensures var s := PostTransact(k2, boundary, keys, target, code, uid, data, reply, resultCode);
      (s.Returned? && s.outcome.Replace?) <==>
        && target == k2.keystore && reply.Reply? && !reply.hasException
        && !(code == k2.deleteKeyCode && resultCode == 0)
        && code == k2.getKeyEntryCode
        && ChainSubstituted(boundary, data, reply.response)
    ensures var s := PostTransact(k2, boundary, keys, target, code, uid, data, reply, resultCode);
      s.Returned? && s.outcome.Replace? ==>
        var r := reply.response.value;
        s.outcome.response == boundary.writeBack(r, boundary.substitute(boundary.chainOf(r).value).value).value
  {
  }

  // ---------------------------------------------------------------------
  // Post hook followed by pre hook
  // ---------------------------------------------------------------------

  /** Deletion clears state: once the caller has deleted a key, a later
      lookup of that key is never answered from the table. */
  lemma DeletedKeyIsNotReplayed(k2: Keystore2, boundary: ChainBoundary, policy: Policy, keys: KeyTable,
                                target: BinderRef, code: int, uid: int, data: RequestParcel,
                                reply: ReplyParcel, resultCode: int, code2: int, data2: RequestParcel)
    requires DeleteApplies(k2, target, code, data, reply, resultCode)
    requires RequestDecodes(data2) && data2.descriptor.value.alias == data.descriptor.value.alias
    ensures var after := PostTransact(k2, boundary, keys, target, code, uid, data, reply, resultCode).keys;
      !PreTransact(k2, policy, after, code2, uid, data2).Replace?
  {
    var after := PostTransact(k2, boundary, keys, target, code, uid, data, reply, resultCode).keys;
    DeleteRemovesExactlyOwnKey(k2, boundary, keys, target, code, uid, data, reply, resultCode);
    ReplaceExactly(k2, policy, after, code2, uid, data2);
  }

  /** Deleting one key does not change how any other key is looked up,
      under one policy, whose skip flag does not depend on the table. */
  lemma DeleteIsolatesOtherKeys(k2: Keystore2, boundary: ChainBoundary, policy: Policy, keys: KeyTable,
                                target: BinderRef, code: int, uid: int, data: RequestParcel,
                                reply: ReplyParcel, resultCode: int,
                                code2: int, uid2: int, data2: RequestParcel)
    requires RequestDecodes(data2)
    requires !(DeleteApplies(k2, target, code, data, reply, resultCode)
               && uid2 == uid && data2.descriptor.value.alias == data.descriptor.value.alias)
    ensures var after := PostTransact(k2, boundary, keys, target, code, uid, data, reply, resultCode).keys;
      PreTransact(k2, policy, after, code2, uid2, data2) == PreTransact(k2, policy, keys, code2, uid2, data2)
  {
    var after := PostTransact(k2, boundary, keys, target, code, uid, data, reply, resultCode).keys;
    var alias2 := data2.descriptor.value.alias;
    if DeleteApplies(k2, target, code, data, reply, resultCode) {
      DeleteRemovesExactlyOwnKey(k2, boundary, keys, target, code, uid, data, reply, resultCode);
      assert (uid2, alias2) != (uid, data.descriptor.value.alias);
    } else {
      TableUnchangedUnlessDelete(k2, boundary, keys, target, code, uid, data, reply, resultCode);
    }
    assert Lookup(after, uid2, alias2) == Lookup(keys, uid2, alias2);
    PreReadsOnlyOwnEntry(k2, policy, after, keys, code2, uid2, data2);
  }
}

=== FILE: key_table_trace.dfy ===
/** The response table across a sequence of post-hook calls.

    The post hook is the only place in the keystore2 interceptor that
    changes the table, and it only ever removes entries. Over any sequence
    of calls an entry therefore survives exactly when none of the calls was a
    successful delete of that key, and it keeps its cached response, so a
    later lookup replays the very same response. */
module KeyTableTrace {
  import opened KeystoreTypes
  import opened Keystore2Interceptor
  import opened InterceptorProperties

  /** One intercepted call as the post hook sees it. */
  datatype PostCall = PostCall(
    target: BinderRef, code: int, uid: int, data: RequestParcel, reply: ReplyParcel, resultCode: int)

  /** The post hook applied to one call. */
  function PostStep(k2: Keystore2, boundary: ChainBoundary, keys: KeyTable, c: PostCall): PostResult
  {
    PostTransact(k2, boundary, keys, c.target, c.code, c.uid, c.data, c.reply, c.resultCode)
  }

  /** Call `c` is a successful delete of key `k`. */
  predicate Deletes(k2: Keystore2, c: PostCall, k: Key)
  {
    DeleteApplies(k2, c.target, c.code, c.data, c.reply, c.resultCode)
    && k == (c.uid, c.data.descriptor.value.alias)
  }

  /** The table after the post hook has handled every call of `calls`, in
      order; it is a sub-table of the starting one. */
  function RunPostTrace(k2: Keystore2, boundary: ChainBoundary, keys: KeyTable, calls: seq<PostCall>): (t: KeyTable)
    ensures forall k :: k in t ==> k in keys && t[k] == keys[k]
    decreases |calls|
  {
    if |calls| == 0 then keys
    else RunPostTrace(k2, boundary, PostStep(k2, boundary, keys, calls[0]).keys, calls[1..])
  }

  /** One post-hook call removes exactly the key it deletes. */
  lemma StepRemovesExactlyDeleted(k2: Keystore2, boundary: ChainBoundary, keys: KeyTable, c: PostCall)
    ensures forall k :: k in PostStep(k2, boundary, keys, c).keys <==> k in keys && !Deletes(k2, c, k)
  {
    if DeleteApplies(k2, c.target, c.code, c.data, c.reply, c.resultCode) {
      DeleteRemovesExactlyOwnKey(k2, boundary, keys, c.target, c.code, c.uid, c.data, c.reply, c.resultCode);
    } else {
      TableUnchangedUnlessDelete(k2, boundary, keys, c.target, c.code, c.uid, c.data, c.reply, c.resultCode);
    }
  }

  /** A key is in the table after a sequence of calls exactly when it was
      there before and no call in the sequence deleted it. */
  lemma {:induction false} TraceKeepsExactlyUndeleted(k2: Keystore2, boundary: ChainBoundary,
                                                       keys: KeyTable, calls: seq<PostCall>)
    ensures forall k :: k in RunPostTrace(k2, boundary, keys, calls) <==>
      k in keys && forall i :: 0 <= i < |calls| ==> !Deletes(k2, calls[i], k)
    decreases |calls|
  {
    if |calls| > 0 {
      var mid := PostStep(k2, boundary, keys, calls[0]).keys;
      StepRemovesExactlyDeleted(k2, boundary, keys, calls[0]);
      TraceKeepsExactlyUndeleted(k2, boundary, mid, calls[1..]);
      forall k
        ensures k in RunPostTrace(k2, boundary, keys, calls) <==>
          k in keys && forall i :: 0 <= i < |calls| ==> !Deletes(k2, calls[i], k)
      {
        assert forall i :: 1 <= i < |calls| ==> calls[i] == calls[1..][i - 1];
      }
    }
  }

  /** Idempotent replay: when no call of the sequence deleted the caller's
      key, a lookup after the sequence has the same outcome as before it,
      under one policy, whose skip flag does not depend on the table. */
  lemma ReplayStableAcrossTrace(k2: Keystore2, boundary: ChainBoundary, policy: Policy, keys: KeyTable,
                                calls: seq<PostCall>, code: int, uid: int, data: RequestParcel)
    requires RequestDecodes(data)
    requires forall i :: 0 <= i < |calls| ==> !Deletes(k2, calls[i], (uid, data.descriptor.value.alias))
    ensures PreTransact(k2, policy, RunPostTrace(k2, boundary, keys, calls), code, uid, data)
      == PreTransact(k2, policy, keys, code, uid, data)
  {
    var after := RunPostTrace(k2, boundary, keys, calls);
    var alias := data.descriptor.value.alias;
    TraceKeepsExactlyUndeleted(k2, boundary, keys, calls);
    assert (uid, alias) in after <==> (uid, alias) in keys;
    assert Lookup(after, uid, alias) == Lookup(keys, uid, alias);
    PreReadsOnlyOwnEntry(k2, policy, after, keys, code, uid, data);
  }

  /** Deletion clears state across a sequence: once some call deleted the
      caller's key, a lookup after the sequence is never a replacement. */
  lemma DeletedInTraceIsNotReplayed(k2: Keystore2, boundary: ChainBoundary, policy: Policy, keys: KeyTable,
                                    calls: seq<PostCall>, j: int, code: int, uid: int, data: RequestParcel)
    requires RequestDecodes(data)
    requires 0 <= j < |calls| && Deletes(k2, calls[j], (uid, data.descriptor.value.alias))
    ensures !PreTransact(k2, policy, RunPostTrace(k2, boundary, keys, calls), code, uid, data).Replace?
  {
    var after := RunPostTrace(k2, boundary, keys, calls);
    TraceKeepsExactlyUndeleted(k2, boundary, keys, calls);
    assert (uid, data.descriptor.value.alias) !in after;
    ReplaceExactly(k2, policy, after, code, uid, data);
  }
}

=== FILE: keystore2_interceptor.dfy ===
/** The transaction-routing hooks that the keystore2 interceptor installs on
    the main `IKeystoreService` binder.

    `PreTransact` runs before the real service and may answer a
    `getKeyEntry` call from the response table instead of the service.
    `PostTransact` runs after the real service; it drops the table entry of
    a successfully deleted key and substitutes the certificate chain in a
    `getKeyEntry` reply. Both are pure: the table is an input, and the post
    hook returns the table it leaves behind. */
module Keystore2Interceptor {
  import opened HookFlow
  import opened KeystoreTypes

  /** The fixed parts of the interceptor object: the transaction codes of
      `getKeyEntry` and `deleteKey`, and the main keystore binder that the
      post hook accepts as target. */
  datatype Keystore2 = Keystore2(getKeyEntryCode: int, deleteKeyCode: int, keystore: BinderRef)

  /** Answers of the collaborators the pre hook consults: whether any keybox
      is loaded, the per-uid package policy, and whether the leaf hack must
      be skipped for a key. The skip flag is taken as a fixed function of
      (uid, alias), independent of the response table. */
  datatype Policy = Policy(
    hasKeyboxes: bool,
    needGenerate: int -> bool,
    needHack: int -> bool,
    shouldSkipLeafHack: (int, string) -> bool)

  /** The certificate-chain collaborators the post hook calls: reading the
      chain out of a response (nullable, may throw), substituting it (`None`
      when it throws), and writing it back (`None` when the write fails). */
  datatype ChainBoundary = ChainBoundary(
    chainOf: Response -> Call<Chain>,
    substitute: Chain -> Option<Chain>,
    writeBack: (Response, Chain) -> Option<Response>)

  /** What the post hook leaves behind: a returned outcome with the table,
      or an exception escaping the hook (the table is then unchanged). */
  datatype PostResult =
    | Returned(outcome: HookOutcome<Response>, keys: KeyTable)
    | Raised(keys: KeyTable)

  /** The request decodes to a key descriptor: the interface token matches
      and the typed read produced a non-null object. */
  predicate RequestDecodes(data: RequestParcel)
  {
    data.token == KeystoreDescriptor && data.descriptor.Value?
  }

  /** The answer the pre hook gives from the table: replay the cached
      response, or decline when there is none. */
  function Replay(keys: KeyTable, uid: int, alias: string): Flow<Response>
  {
    match Lookup(keys, uid, alias)
    case Some(r) => Return(Replace(r))
    case None => Leave
  }

  /** The body of the `runCatching` block of the pre hook. */
  function PreGuardedBlock(policy: Policy, keys: KeyTable, uid: int, data: RequestParcel): Flow<Response>
  {
    if data.token != KeystoreDescriptor then Raise
    else match data.descriptor
      case Threw => Raise
      case Null => Leave
      case Value(d) =>
        if policy.needGenerate(uid) then Replay(keys, uid, d.alias)
        else if policy.needHack(uid) then
          if policy.shouldSkipLeafHack(uid, d.alias) then Replay(keys, uid, d.alias)
          else Return(Continue)
        else Return(Skip)
  }

  /** The pre hook. Only `getKeyEntry` with a keybox loaded is examined;
      whatever it returns other than `Skip` is grounded in the request and
      the table: a replacement is always the cached entry of the caller's
      own (uid, alias), and `Continue` is given only to a caller whose
      leaf certificate is to be hacked. */
  function PreTransact(k2: Keystore2, policy: Policy, keys: KeyTable, code: int, uid: int,
                       data: RequestParcel): (o: HookOutcome<Response>)
    ensures code != k2.getKeyEntryCode || !policy.hasKeyboxes ==> o == Skip
    ensures !RequestDecodes(data) ==> o == Skip
    ensures o.Replace? ==>
      RequestDecodes(data) && (uid, data.descriptor.value.alias) in keys
      && o.response == keys[(uid, data.descriptor.value.alias)]
    ensures o == Continue ==>
      RequestDecodes(data) && !policy.needGenerate(uid) && policy.needHack(uid)
      && !policy.shouldSkipLeafHack(uid, data.descriptor.value.alias)
  {
    if code == k2.getKeyEntryCode && policy.hasKeyboxes then
      Guard(PreGuardedBlock(policy, keys, uid, data))
    else
      Skip
  }

  /** The body of the `try` block of the post hook for `getKeyEntry`:
      decode the reply, read its chain, substitute it and write it back. */
  function HackFlow(boundary: ChainBoundary, data: RequestParcel, reply: Call<Response>): Flow<Response>
  {
    if data.token != KeystoreDescriptor then Raise
    else match reply
      case Threw => Raise
      case Null => Leave
      case Value(response) =>
        match boundary.chainOf(response)
        case Threw => Raise
        case Null => Leave
        case Value(chain) =>
          match boundary.substitute(chain)
          case None => Raise
          case Some(newChain) =>
            match boundary.writeBack(response, newChain)
            case None => Raise
            case Some(updated) => Return(Replace(updated))
  }

  /** The delete branch of the post hook, entered for `deleteKey` with
      result code 0. Its decoding is not guarded, so a malformed request
      escapes the hook as an exception. */
  function DeleteBranch(keys: KeyTable, uid: int, data: RequestParcel): PostResult
  {
    if data.token != KeystoreDescriptor then Raised(keys)
    else match data.descriptor
      case Threw => Raised(keys)
      case Null => Returned(Skip, keys)
      case Value(d) =>
        if d.domain == IgnoredDeleteDomain then Returned(Skip, keys)
        else Returned(Skip, Forget(keys, uid, d.alias))
  }

  /** The post hook. It never asks for `Continue`; it changes the table by
      at most the removal of the caller's own entry, and only through a
      `deleteKey`; a replacement is a response the chain boundary wrote. */
  function PostTransact(k2: Keystore2, boundary: ChainBoundary, keys: KeyTable, target: BinderRef,
                        code: int, uid: int, data: RequestParcel, reply: ReplyParcel,
                        resultCode: int): (s: PostResult)
    ensures s.Returned? ==> s.outcome != Continue
    ensures forall k :: k in s.keys ==> k in keys && s.keys[k] == keys[k]
    ensures forall k :: k in keys && k !in s.keys ==>
      k.0 == uid && code == k2.deleteKeyCode && resultCode == 0
    ensures s.Raised? ==> code == k2.deleteKeyCode && resultCode == 0 && !RequestDecodes(data)
    ensures target != k2.keystore || reply.NoReply? ==> s == Returned(Skip, keys)
  {
    if target != k2.keystore || reply.NoReply? then Returned(Skip, keys)
    else if reply.hasException then Returned(Skip, keys)
    else if code == k2.deleteKeyCode && resultCode == 0 then DeleteBranch(keys, uid, data)
    else if code == k2.getKeyEntryCode then
      Returned(Guard(HackFlow(boundary, data, reply.response)), keys)
    else Returned(Skip, keys)
  }
}

=== FILE: keystore_types.dfy ===
/** The keystore2 values the interceptor inspects, seen through what the
    binder wire format lets it decode, and the per-(uid, alias) table of
    responses that the security-level interceptors have synthesized. */
module KeystoreTypes {
  import opened HookFlow

  /** Interface token every `IKeystoreService` request parcel starts with. */
  const KeystoreDescriptor: string := "android.system.keystore2.IKeystoreService"

  /** The key domain value that makes a deleted descriptor irrelevant to the
      table; any other domain lets the delete clear the table entry. */
  const IgnoredDeleteDomain: int := 0

  /** Identity of a binder object, compared only for equality. */
  type BinderRef(==)

  /** A `KeyEntryResponse` as the service encodes it in a reply. Its
      structure is never inspected by the interceptor itself: the certificate
      chain is read and written back through the chain boundary. */
  type Response(==)

  /** One DER-encoded certificate. */
  type Certificate = seq<bv8>

  /** A certificate chain, leaf first. */
  type Chain = seq<Certificate>

  /** The fields of a `KeyDescriptor` the interceptor reads. */
  datatype KeyDescriptor = KeyDescriptor(domain: int, alias: string)

  /** A request parcel as far as the hooks decode it: the interface token at
      its head, then the result of reading a typed `KeyDescriptor`. */
  datatype RequestParcel = RequestParcel(token: string, descriptor: Call<KeyDescriptor>)

  /** A reply parcel: absent (`null`), or present with its exception marker
      and the result of reading a typed `KeyEntryResponse` from it. */
  datatype ReplyParcel =
    | NoReply
    | Reply(hasException: bool, response: Call<Response>)

  /** The composite key of the response table: calling uid and alias. */
  type Key = (int, string)

  /** Synthesized responses, keyed by (calling uid, alias). */
  type KeyTable = map<Key, Response>

  /** The cached response for (uid, alias), if any. */
  function Lookup(keys: KeyTable, uid: int, alias: string): (r: Option<Response>)
    ensures r.Some? <==> (uid, alias) in keys
    ensures r.Some? ==> keys[(uid, alias)] == r.value
  {
    if (uid, alias) in keys then Some(keys[(uid, alias)]) else None
  }

  /** The table after removing the entry of (uid, alias); removing an absent
      key is a no-op. */
  function Forget(keys: KeyTable, uid: int, alias: string): (t: KeyTable)
    ensures (uid, alias) !in t
    ensures forall k :: k in t <==> k in keys && k != (uid, alias)
    ensures forall k :: k in t ==> t[k] == keys[k]
  {
    keys - {(uid, alias)}
  }
}

=== FILE: scenarios.dfy ===
/** End-to-end walks through the keystore2 interceptor for one application
    (uid 10205): a generated key looked up with and without a cached
    response, a hacked leaf certificate, and the deletion of a generated key. */
module Scenarios {
  import opened HookFlow
  import opened KeystoreTypes
  import opened Keystore2Interceptor

  const AppUid: int := 10205

  /** A request for `alias` with a well-formed header and domain 3. The
      domain is chosen non-zero so that a delete of it clears the table; an
      application naming its own key sends domain 0, see `AppRequest`. */
  function LookupRequest(alias: string): RequestParcel
  {
    RequestParcel(KeystoreDescriptor, Value(KeyDescriptor(3, alias)))
  }

  /** A request for `alias` in domain 0, the domain an application uses for
      its own keys. */
  function AppRequest(alias: string): RequestParcel
  {
    RequestParcel(KeystoreDescriptor, Value(KeyDescriptor(IgnoredDeleteDomain, alias)))
  }

  /** Policy that generates keys for the application only. */
  function GeneratePolicy(): Policy
  {
    Policy(true, u => u == AppUid, u => false, (u, a) => false)
  }

  /** Policy that hacks the leaf certificate of the application only. */
  function HackPolicy(): Policy
  {
    Policy(true, u => false, u => u == AppUid, (u, a) => false)
  }

  /** Generation without a cached response declines; the real service runs. */
  lemma GenerateWithoutCacheDeclines(k2: Keystore2)
    ensures PreTransact(k2, GeneratePolicy(), map[], k2.getKeyEntryCode, AppUid, LookupRequest("app-key")) == Skip
  {
  }

  /** Generation with a cached response replays it. */
  lemma GenerateWithCacheReplays(k2: Keystore2, r: Response)
    ensures PreTransact(k2, GeneratePolicy(), map[(AppUid, "app-key") := r], k2.getKeyEntryCode, AppUid,
                        LookupRequest("app-key")) == Replace(r)
  {
  }

  /** The leaf hack lets the call through, then replaces the reply with the
      response carrying the substituted chain (for instance a three-certificate
      genuine chain replaced by a two-certificate one; the chains are opaque,
      so their lengths play no part). */
  lemma LeafHackRewritesReply(k2: Keystore2, boundary: ChainBoundary, keys: KeyTable,
                              genuine: Response, hacked: Response, c: Chain, c': Chain)
    requires k2.getKeyEntryCode != k2.deleteKeyCode
    requires boundary.chainOf(genuine) == Value(c)
    requires boundary.substitute(c) == Some(c')
    requires boundary.writeBack(genuine, c') == Some(hacked)
    ensures PreTransact(k2, HackPolicy(), keys, k2.getKeyEntryCode, AppUid, LookupRequest("leaf-key")) == Continue
    ensures PostTransact(k2, boundary, keys, k2.keystore, k2.getKeyEntryCode, AppUid, LookupRequest("leaf-key"),
                         Reply(false, Value(genuine)), 0) == Returned(Replace(hacked), keys)
  {
  }

  /** A successful delete of the generated key clears its table entry, after
      which generation declines again. */
  lemma DeleteClearsGeneratedKey(k2: Keystore2, boundary: ChainBoundary, r: Response)
    ensures var after := PostTransact(k2, boundary, map[(AppUid, "app-key") := r], k2.keystore, k2.deleteKeyCode,
                                      AppUid, LookupRequest("app-key"), Reply(false, Null), 0).keys;
      && after == map[]
      && PreTransact(k2, GeneratePolicy(), after, k2.getKeyEntryCode, AppUid, LookupRequest("app-key")) == Skip
  {
  }

  /** A successful delete in domain 0 leaves the generated key's entry in
      place, so generation keeps replaying the cached response. */
  lemma AppDomainDeleteKeepsGeneratedKey(k2: Keystore2, boundary: ChainBoundary, r: Response)
    ensures var after := PostTransact(k2, boundary, map[(AppUid, "app-key") := r], k2.keystore, k2.deleteKeyCode,
                                      AppUid, AppRequest("app-key"), Reply(false, Null), 0).keys;
      && after == map[(AppUid, "app-key") := r]
      && PreTransact(k2, GeneratePolicy(), after, k2.getKeyEntryCode, AppUid, AppRequest("app-key")) == Replace(r)
  {
  }
}
